=== FILE: README.md ===
# RTMP streaming control window — Dafny model

This project models the core of a small PyQt controller. The controller starts
and stops the RTMP streaming of a remote device. It does this over two HTTP
endpoints: `set_ctl`, which sends a command, and `get_ctl`, which polls the status.
Two parts of `ctrl_window_get_send_server.py` are modelled.

- **IPv4 validation** (`MainWindow.is_valid_ip`). The input is split on ".". It
  needs exactly four fields, and each field must be accepted by Python's `int`
  with a value in 0..255. A `ValueError` becomes a rejection.
  - `Text` models `str.split` with an explicit separator, plus its inverse `Join`.
  - `IntParse` models `int()` on ASCII sign-and-digit strings.
  - `IpAddress` holds the check, both as a predicate and as the source's early-return
    loop, together with a reference definition: "four dot-free octet fields joined
    by dots".
  - `IpExamples` holds concrete accept and reject cases.
- **The streaming state machine**, with Qt taken out.
  - `GetApi` models `GetApiThread`. Its `running` and `rtmp_enable` flags drive
    the loop. One GET is one step, and the loop runs over a script of GET outcomes
    and `stop`/`set_rtmp_enable` calls. Two quirks of the source are modelled
    as written:
    - the second `run` definition replaces the first, so a started thread always
      loops;
    - the `is_rtmp_disabled` stub returns `None`, so every response body is forwarded.
    The thread also records when its loop test has failed: `check_continuously`
    has then returned, and no later flag change brings the loop back.
  - `MainWindow` turns each slot into a pure transition on an immutable
    `Window` record. The record holds:
    - the streaming flag, the LED colour, the status label and the button caption;
    - whether the start and settings buttons are enabled;
    - the current poll thread and whether its signals are connected;
    - the number of SET threads whose reply is still connected (`pendingAcks`);
    - the SET requests sent so far;
    - the number of orphaned poll threads: threads replaced by a later start
      while still looping and connected, which nothing ever stops;
    - whether the application has aborted, because an exception escaped a slot.
  - `Events` makes Qt signal delivery explicit. The outside world supplies
    four kinds of event: a click, a SET reply, an iteration of the current poll
    thread and an iteration of an orphaned one. The following are proved over
    every event sequence:
    - an invariant that holds of every reachable window;
    - stale-result immunity: once the user stops, or the device reports "0",
      results from the current poll thread no longer reach the slots. Orphaned
      threads still do, and can show the window recording after a stop;
    - the crash in `stop_streaming`: a late reply to SET 1, or a "1" from an
      orphaned poll thread, can set `is_streaming` again after the poll
      thread's signals were disconnected,
      and the next click then fails in `disconnect()` (see Findings).

HTTP replies, the address stored in the configuration file and the stored
`rtmp_enable` value are all parameters of the model.

## Model

| member | source | states |
|---|---|---|
| Text.Split | ctrl_window_get_send_server.py:358 | `ip.split(".")` gives one more field than there are dots, no field contains a dot, and joining the fields with "." gives back the input |
| Text.SplitJoin | ctrl_window_get_send_server.py:358 | the reverse round trip: splitting the join of dot-free fields gives back exactly those fields |
| IntParse.ParseInt | ctrl_window_get_send_server.py:362-367 | `int(item)` fails on the empty string, accepts only a leading sign followed by digits, yields a negative value only after "-", and always accepts a plain digit string |
| IntParse.ParseShow | ctrl_window_get_send_server.py:362 | `int(str(n)) == n` for every integer n |
| IntParse.ParseLeadingZero | ctrl_window_get_send_server.py:362 | a leading zero does not change what `int` returns, so "010" is 10 |
| IntParse.ParseSigned | ctrl_window_get_send_server.py:362 | "+d" parses to the value of d and "-d" to its negation |
| IpAddress.CheckIp | ctrl_window_get_send_server.py:356-367 | the loop with early returns agrees with the predicate; fewer or more than four fields is rejected; a field that `int` rejects gives false, not an exception; a field outside 0..255 gives false |
| IpAddress.IsValidIp | ctrl_window_get_send_server.py:356-367 | the verdict of `is_valid_ip`: an accepted address has exactly three dots, at least seven characters, and neither starts nor ends with a dot |
| IpAddress.IsValidIpMatchesReference | ctrl_window_get_send_server.py:356-364 | the check accepts exactly the strings that are four dot-free fields joined by ".", each parsing to a value in 0..255 |
| IpAddress.FormattedAddressAccepted | ctrl_window_get_send_server.py:356-364 | every address printed from four integers in 0..255 is accepted |
| IpExamples.AcceptsPrivateAddress | ctrl_window_get_send_server.py:356-364 | "192.168.1.10" is accepted |
| IpExamples.RejectsOctetAbove255 | ctrl_window_get_send_server.py:361-363 | "256.1.1.1" is rejected |
| IpExamples.RejectsNegativeOctet | ctrl_window_get_send_server.py:361-363 | "-1.0.0.0" is rejected |
| IpExamples.RejectsNonNumericFields | ctrl_window_get_send_server.py:361-367 | "a.b.c.d" is rejected |
| IpExamples.RejectsEmptyField | ctrl_window_get_send_server.py:361-367 | "1..2.3" is rejected because `int("")` raises |
| IpExamples.RejectsThreeFields | ctrl_window_get_send_server.py:358-360 | "1.2.3" is rejected |
| IpExamples.RejectsFiveFields | ctrl_window_get_send_server.py:358-360 | "1.2.3.4.5" is rejected |
| IpExamples.RejectsEmptyAddress | ctrl_window_get_send_server.py:358-360 | "" is rejected, since it splits into one empty field |
| IpExamples.AcceptsSignsAndLeadingZeros | ctrl_window_get_send_server.py:361-364 | "-0.+1.007.255" is accepted, because `int` allows a sign and leading zeros |
| GetApi.Create | ctrl_window_get_send_server.py:41-46 | a new thread has `running` set, has not started, and keeps the given `rtmp_enable` and `continuous` |
| GetApi.Start | ctrl_window_get_send_server.py:258-261 | `start()` marks the thread started and changes none of its flags |
| GetApi.Stop | ctrl_window_get_send_server.py:94-95 | `stop()` clears `running` and nothing else |
| GetApi.SetRtmpEnable | ctrl_window_get_send_server.py:91-92 | `set_rtmp_enable` overwrites `rtmp_enable` and nothing else |
| GetApi.PhaseOf | ctrl_window_get_send_server.py:72-83 | a thread is looping exactly when it has started, has not yet left `check_continuously`, `running` holds and `rtmp_enable` is not 0; once its loop test has failed it is stopped for good |
| GetApi.CheckOnce | ctrl_window_get_send_server.py:55-70 | one check leaves the flags unchanged and forwards the body as `response_signal` (the stub never reports "disabled"), or forwards a failure as `error_signal` |
| GetApi.IsRtmpDisabled | ctrl_window_get_send_server.py:86-89 | the stub returns `None`, so no response body is ever classified as "disabled" |
| GetApi.Iterate | ctrl_window_get_send_server.py:72-83 | a thread emits a signal for a GET exactly when it is looping, and the signal carries that GET's outcome; a started thread whose loop test fails leaves `run` for good and never emits again; the flags are never changed |
| GetApi.Loop | ctrl_window_get_send_server.py:72-80 | the loop emits at most one signal per GET and nothing at all once `running` is clear |
| GetApi.Run | ctrl_window_get_send_server.py:82-83 | the `run` that takes effect emits at most one signal per GET, nothing once `running` is clear, and for a thread built with `continuous=True` the same as the `run` it overrides |
| GetApi.SingleCheck | ctrl_window_get_send_server.py:49-70 | a single `check_once` emits at most one signal, and exactly one when the script has a GET |
| GetApi.OverriddenRun | ctrl_window_get_send_server.py:49-53 | the first `run`: with `continuous=False` it emits one signal if there is a GET and none otherwise; it never emits more than one signal per GET |
| GetApi.DriveMatchesLoop | ctrl_window_get_send_server.py:72-83 | stepping a started thread one iteration at a time, with the window's `stop`/`set_rtmp_enable` calls in between, emits exactly what the loop emits over the same script |
| GetApi.ExitedThreadSilent | ctrl_window_get_send_server.py:76-83 | a thread that has left `run` emits nothing more, whatever `stop` or `set_rtmp_enable` calls follow |
| GetApi.NoRestartAfterExit | ctrl_window_get_send_server.py:76-83 | after the loop test fails once, `set_rtmp_enable(1)` does not make the thread poll again |
| GetApi.LoopForwardsEveryReply | ctrl_window_get_send_server.py:55-80 | a looping thread left alone emits one signal per GET, in order, with each body forwarded |
| GetApi.StopIdempotent | ctrl_window_get_send_server.py:290-301 | calling `stop()` twice, as `stop_streaming` does, equals calling it once, and the loop condition then fails |
| GetApi.ContinuousFlagIgnored | ctrl_window_get_send_server.py:49-83 | because the second `run` replaces the first, a thread does the same whatever its `continuous` flag |
| GetApi.OverrideChangesSingleCheckThread | ctrl_window_get_send_server.py:49-83 | the first `run`, which would have honoured `continuous=False` with a single check, is overridden: with it a single-check thread emits at most one signal, but the effective `run` emits one per GET, so for two or more GETs they differ |
| GetApi.SingleCheckThreadPollsContinuously | ctrl_window_get_send_server.py:41-83 | a thread built with `continuous=False` still emits one signal for each of any number of GETs |
| GetApi.DisabledLoopExits | ctrl_window_get_send_server.py:76-78 | after `set_rtmp_enable(0)`, the loop exits at its next test without another GET |
| MainWindow.DisplayErrorMessage | ctrl_window_get_send_server.py:313-317 | shows the message, greys the LED, sets the caption to Start and clears `is_streaming`, without touching the command path or the poll thread |
| MainWindow.HandleApiError | ctrl_window_get_send_server.py:305-317 | whatever the state before, ends with `is_streaming` false, a grey LED, the caption Start, the "not connected" label and both buttons enabled; the poll thread is left as it was |
| MainWindow.HandleApiResponse | ctrl_window_get_send_server.py:320-334 | "0" turns the LED red, shows the label exactly as the source spells it ("è" written as its two UTF-8 bytes read as Latin-1, "Ã¨"), sets the caption to Stop and stops the current poll thread, leaving `is_streaming` unchanged; any other body sets `is_streaming` with a green LED; both lock the settings button |
| MainWindow.HandleInitialStatus | ctrl_window_get_send_server.py:213-228 | "1" shows the window recording, with the caption Stop and settings locked, and starts no poll thread; anything else shows it idle; both re-enable the start button |
| MainWindow.StopStreaming | ctrl_window_get_send_server.py:275-301 | when streaming, always appends SET 0 (with no reply connected); if the poll thread's signals are still connected, ends and disconnects the thread and shows the window idle with settings enabled; if they were already disconnected, `disconnect()` raises, the application halts and nothing else changes; when not streaming, changes nothing |
| MainWindow.StartStreaming | ctrl_window_get_send_server.py:242-272 | no stored address: nothing sent or started, with label "Inserire Ip", a grey LED, not streaming and the settings button untouched; idle: exactly one SET 1 and a new running, connected poll thread, the replaced thread counted as an orphan if it was still looping and connected, with a green LED, the caption Stop and settings locked; streaming: exactly `stop_streaming`, including its crash |
| MainWindow.StopStreamingGuarded | ctrl_window_get_send_server.py:275-301 | the stop with the poll-thread disconnect guarded: whenever streaming, it appends SET 0, ends the poll thread and shows the window idle with settings enabled, never halting; on a connected poll thread it equals `stop_streaming` |
| Events.Launch | ctrl_window_get_send_server.py:152-164 | after start-up the start button is enabled, nothing has been sent and the poll thread has not started; a probe answer of "1" shows the window recording and any other outcome shows it idle |
| Events.Step | ctrl_window_get_send_server.py:163-288 | each event reaches its slot only while the sender is connected (the connections at lines 163-164, 254-255 and 259-260, the disconnections at 285-288): a click reaches `start_streaming`; a SET reply changes nothing when no SET thread is connected, and otherwise uses one up and is delivered to `handle_api_response` or `handle_api_error` like any other result (a failure shows the window idle, "1" shows it recording, "0" turns the LED red and stops the current poll thread); an orphan's result, while orphans exist, is delivered the same way; a result of a current poll thread that is not looping or is disconnected, or of an orphan when there is none, changes nothing; a looping, connected thread's result is delivered; only clicks send commands; after an abort nothing changes |
| Events.StepPreservesConsistent | ctrl_window_get_send_server.py:242-334 | every click, SET reply and poll iteration preserves the window invariant |
| Events.RunPreservesConsistent | ctrl_window_get_send_server.py:242-334 | the invariant holds after any sequence of events |
| Events.ReachableConsistent | ctrl_window_get_send_server.py:152-334 | every window reachable from start-up satisfies the invariant: if streaming, it shows Stop, a green or red LED and locked settings; a looping poll thread is connected and follows a SET 1 |
| Events.StepSendsOnlyOnClick | ctrl_window_get_send_server.py:242-301 | SET requests are only appended, one per click that has a stored address, and none once the application has halted |
| Events.PollRepliesIgnoredWhenNotRunning | ctrl_window_get_send_server.py:76-80 | iterations of the current poll thread change nothing while it is not looping or once the application has halted |
| Events.StaleRepliesIgnoredAfterStop | ctrl_window_get_send_server.py:285-291 | after the user stops streaming, no later result of the current poll thread changes the window |
| Events.StopSilencesPollingWithoutOrphans | ctrl_window_get_send_server.py:258-291 | when no replaced poll thread is still looping, a stop silences every poll result, orphaned or current |
| Events.OrphanRevivesAfterStop | ctrl_window_get_send_server.py:258-334 | a poll thread left looping by a poll error is replaced by the next start; after the user stops, a "1" it reports shows the window recording although the last command sent was SET 0 |
| Events.CurrentThreadDeliversLoopSignals | ctrl_window_get_send_server.py:72-80 | while the current poll thread loops and is connected and no body is "0", the window receives exactly the signals `check_continuously` emits for those GETs, in order |
| Events.RepliesIgnoredAfterInterruption | ctrl_window_get_send_server.py:320-328 | after the device reports "0", the LED is red and no later result of the current poll thread changes the window |
| Events.PollErrorKeepsPolling | ctrl_window_get_send_server.py:305-334 | a poll error shows the window idle but leaves the poll thread looping, so a later "1" shows it recording again |
| Events.StartThenStop | ctrl_window_get_send_server.py:242-301 | two clicks from idle send exactly SET 1 then SET 0 and leave the window idle, with the poll thread ended and disconnected |
| Events.LaunchStreamingThenClick | ctrl_window_get_send_server.py:213-272 | if the device was already streaming at start-up, the first click sends SET 0 and does not start a second stream |
| Events.SetRepliesBeyondConnectedIgnored | ctrl_window_get_send_server.py:279-286 | only SET threads whose signals are still connected reach a slot: after as many replies as there are connected SET threads, further SET replies (such as the reply to a stop's SET 0) change nothing |
| Events.HaltedIgnoresEvents | ctrl_window_get_send_server.py:287 | once an exception has escaped a slot, no event changes the window |
| Events.LateStartReplyThenStopHalts | ctrl_window_get_send_server.py:242-301 | from a failed start-up probe, start, stop and a late "1" reply to the SET 1, the next click sends SET 0 and halts in `disconnect()` with the caption still Stop; the guarded stop from the same window ends idle |
| Events.OrphanRevivalThenClickHalts | ctrl_window_get_send_server.py:258-301 | a second route to the same crash: from a window whose poll thread a poll error left looping, start, stop and an orphan's "1", the next click sends SET 0 and halts in `disconnect()` with the caption still Stop |
| Events.StartCommandFailure | ctrl_window_get_send_server.py:251-311 | a failed start command shows the window idle with both buttons usable, while the poll thread started by the click keeps looping |

## Left out

- IntParse.ParseInt: differs from Python's `int` in two ways. (1) It does not model the limit of CPython 3.11 and later, where `int()` raises `ValueError` on a string of more than 4300 digit characters, leading zeros included. So `IpAddress.CheckIp` accepts an address whose in-range field is padded with leading zeros past 4300 digits, such as `"0" * 4300 + "1"` followed by ".1.1.1", which the source rejects; a field of more than 4300 digits without leading zeros is still rejected, because its value exceeds 255. (2) It accepts only an optional `+`/`-` followed by ASCII digits, while `int()` also accepts surrounding whitespace, `_` between digits and non-ASCII decimal digits; so `IpAddress.CheckIp` rejects addresses such as " 1.2.3.4" that the source accepts.
- IntParse.ParseShow: holds for every integer, while CPython 3.11 and later cannot print or parse integers of more than 4300 digits.
- Qt rendering: pixmaps, painters, style sheets, sizes, icons and the window layout (lines 106-149, 230-239). Only the abstract LED colour, the label, the caption and the enabled flags are kept.
- Dialogs and configuration writes: `get_ip_address`, `open_settings`, `save_ip_to_config`, the `ip_set` flag and `QMessageBox`/`QInputDialog` (lines 182-198, 336-354). The IP address that `start_streaming` reads from `config.ini` is a parameter, with "" meaning none is stored. So is the stored `rtmp_enable`; a non-numeric stored value, which would make `int` raise at line 156, is not modelled.
- HTTP: `requests.get`, URL formatting and timeouts (lines 29-30, 61-62). Each request is a `Reply` value: a body or a failure message.
- Thread scheduling, `time.sleep` and cancellation latency. A poll iteration is one atomic event, and `stop()` takes effect between iterations. A result that is already in flight while `handle_api_response` runs `stop()`/`wait()` (lines 326-327) is not modelled, and neither is a SET reply emitted before `disconnect()` runs (lines 282-286).
- Replaced poll threads are kept only as a count. An orphaned thread is assumed to loop forever and stay connected: nothing in the source calls `stop()` or `set_rtmp_enable` on it once it is replaced, and `is_rtmp_disabled` never clears its `rtmp_enable`. Which orphan emits a given result is not tracked.
- The abort after an exception escapes a slot (PyQt5 5.5 and later call `qFatal`) is the `halted` flag; the traceback and the process exit are not modelled.
- `SetApiThread` is kept only as the request it sends and as a count of connected replies. Each connected reply is delivered once.
- `print` calls, `sys.exit` and the `__main__` bootstrap (lines 196, 369-373).
- Behaviour that a cleaner design would change is modelled as the code has it:
  - every poll body is forwarded, so any body other than "0" counts as recording, even one that is neither "0" nor "1";
  - a poll error does not stop polling;
  - "0" does not clear `is_streaming`;
  - a command request has no timeout.

## Findings

| source | as written | input that shows it | evidently intended | confidence | as-written member | corrected member |
|---|---|---|---|---|---|---|
| ctrl_window_get_send_server.py:285-291 | `stop_streaming` disconnects the poll thread's signals unconditionally; when they were already disconnected by an earlier stop, `disconnect()` raises `TypeError` and the application aborts | two routes: (1) start-up probe fails; click (start); click (stop); the SET 1 reply "1" arrives and sets `is_streaming` again; click. (2) a poll error leaves the poll thread looping; click (start, which orphans that thread); click (stop); the orphan reports "1" and sets `is_streaming` again; click | a stop always ends idle with the poll thread ended, whatever was disconnected before | not executed | MainWindow.StopStreaming, Events.LateStartReplyThenStopHalts, Events.OrphanRevivalThenClickHalts | MainWindow.StopStreamingGuarded |

=== FILE: events.dfy ===
/**
 The window driven by events, with Qt's signal delivery made explicit. Each
 event is one thing the outside world does: the user clicks the start button,
 the pending SET request of a connected `SetApiThread` completes, the current
 poll thread completes one loop iteration, or an orphaned poll thread (one
 replaced while still looping and connected) completes one. A signal reaches a
 slot only while the emitting thread is connected. Once an exception has
 escaped a slot, PyQt5 aborts the application, so no later event has an effect.
 */
module Events {
  import opened Wrappers
  import opened GetApi
  import opened MainWindow

  datatype Event =
    | StartClicked(configIp: string)
    | SetReply(reply: Reply)
    | PollReply(reply: Reply)
    | OrphanPollReply(reply: Reply)

  /** The window right after `__init__`: the start button was disabled for the
      one-shot status check, whose outcome went to `handle_initial_status` or
      `handle_api_error`; then the (unstarted) poll thread was created from the
      stored `rtmp_enable`, with its signals connected. */
  function Launch(configRtmpEnable: int, probe: Reply): (w: Window)
    ensures w.startEnabled && !w.halted
    ensures w.sentCommands == [] && w.pendingAcks == 0 && w.orphans == 0
    ensures PhaseOf(w.poller) == NotRunning && w.pollerConnected
    ensures probe == Body("1") ==> w.isStreaming && w.led == Green && w.buttonText == StopText
    ensures probe != Body("1") ==> !w.isStreaming && w.led == Grey && w.buttonText == StartText
  {
    var blank := Window(false, White, "", StartText, true, true,
                        Create(configRtmpEnable, true), true, 0, 0, [], false);
    var checking := blank.(startEnabled := false);
    var (_, emitted) := CheckOnce(Create(1, true), probe);
    match emitted
    case Some(ResponseSignal(text)) => HandleInitialStatus(checking, text)
    case Some(ErrorSignal(message)) => HandleApiError(checking, message)
    case None => checking
  }

  /** A signal delivered to the slots the window connects it to. */
  function Deliver(w: Window, s: Signal): Window {
    match s
    case ResponseSignal(text) => HandleApiResponse(w, text)
    case ErrorSignal(message) => HandleApiError(w, message)
  }

  /** Signals delivered one after another. */
  function DeliverAll(w: Window, signals: seq<Signal>): Window
    decreases |signals|
  {
    if |signals| == 0 then w else DeliverAll(Deliver(w, signals[0]), signals[1..])
  }

  /** Which slot an event reaches: a click always reaches `start_streaming`; a
      thread's result reaches `handle_api_response` or `handle_api_error` only
      while that thread's signals are connected; after an abort nothing runs. */
  function Step(w: Window, e: Event): (r: Window)
    ensures w.halted ==> r == w
    ensures !w.halted && e.StartClicked? ==> r == StartStreaming(w, e.configIp)
    ensures e.SetReply? && w.pendingAcks == 0 ==> r == w
    ensures e.PollReply? && (!w.pollerConnected || PhaseOf(w.poller) != Running) ==> r == w
    ensures e.OrphanPollReply? && w.orphans == 0 ==> r == w
    ensures !w.halted && e.SetReply? && w.pendingAcks > 0 ==>
      && r.pendingAcks == w.pendingAcks - 1 && r.sentCommands == w.sentCommands
      && (e.reply.Failure? ==> !r.isStreaming && r.statusLabel == NotConnectedLabel)
      && (e.reply == Body("1") ==> r.isStreaming && r.led == Green)
    ensures !w.halted && !e.StartClicked? ==>
      && r.sentCommands == w.sentCommands && r.orphans == w.orphans && !r.halted
      && r.pendingAcks <= w.pendingAcks
    ensures !w.halted && e.PollReply? && w.pollerConnected && PhaseOf(w.poller) == Running ==>
      r == Deliver(w, SignalFor(e.reply))
    ensures !w.halted && e.SetReply? && w.pendingAcks > 0 ==>
      r == Deliver(w.(pendingAcks := w.pendingAcks - 1), SignalFor(e.reply))
    ensures !w.halted && e.OrphanPollReply? && w.orphans > 0 ==> r == Deliver(w, SignalFor(e.reply))
  {
    if w.halted then w
    else
      match e
      case StartClicked(ip) => StartStreaming(w, ip)
      case SetReply(reply) =>
        if w.pendingAcks == 0 then w
        else Deliver(w.(pendingAcks := w.pendingAcks - 1), SignalFor(reply))
      case PollReply(reply) =>
        // a thread that is not looping makes no request; the window never calls
        // `set_rtmp_enable`, so whether it has already left `run` cannot matter
        if PhaseOf(w.poller) != Running then w
        else
          var (_, emitted) := Iterate(w.poller, reply);
          if w.pollerConnected then Deliver(w, emitted.value) else w
      case OrphanPollReply(reply) =>
        // nothing ever stops an orphan, so each of its GETs is forwarded
        if w.orphans == 0 then w else Deliver(w, SignalFor(reply))
  }

  /** The events applied one after another. */
  function Replay(w: Window, events: seq<Event>): Window
    decreases |events|
  {
    if |events| == 0 then w else Replay(Step(w, events[0]), events[1..])
  }

  /** One poll iteration of the current thread per GET outcome. */
  function PollEvents(replies: seq<Reply>): (events: seq<Event>)
    ensures |events| == |replies|
    ensures forall i :: 0 <= i < |events| ==> events[i] == PollReply(replies[i])
  {
    if |replies| == 0 then [] else [PollReply(replies[0])] + PollEvents(replies[1..])
  }

  /** What holds of every window reachable from `Launch`:
      - a streaming window shows "Stop", a green or red LED and locked settings;
      - the start button is usable;
      - a looping poll thread is connected, and was started by the last SET,
        which asked for rtmp_enable = 1;
      - every SET sent asks for 0 or 1;
      - no more SET replies are awaited, and no more orphans exist, than SETs
        were sent. */
  predicate Consistent(w: Window) {
    && (w.isStreaming ==>
          w.buttonText == StopText && (w.led == Green || w.led == Red) && !w.settingsEnabled)
    && w.startEnabled
    && (PhaseOf(w.poller) == Running ==>
          && w.pollerConnected
          && w.poller.rtmpEnable == 1
          && |w.sentCommands| > 0
          && w.sentCommands[|w.sentCommands| - 1].rtmpEnable == 1)
    && (forall i :: 0 <= i < |w.sentCommands| ==>
          w.sentCommands[i].rtmpEnable == 0 || w.sentCommands[i].rtmpEnable == 1)
    && w.pendingAcks <= |w.sentCommands|
    && w.orphans <= |w.sentCommands|
  }

  lemma LaunchConsistent(configRtmpEnable: int, probe: Reply)
    ensures Consistent(Launch(configRtmpEnable, probe))
  {
  }

  lemma StepPreservesConsistent(w: Window, e: Event)
    requires Consistent(w)
    ensures Consistent(Step(w, e))
  {
    if !w.halted && e.StartClicked? {
      var r := StartStreaming(w, e.configIp);
      if e.configIp != "" {
        assert forall i :: 0 <= i < |w.sentCommands| ==> r.sentCommands[i] == w.sentCommands[i];
      }
    }
  }

  /** Every window reachable from `Launch` by any sequence of events is
      `Consistent`. */
  lemma {:induction false} RunPreservesConsistent(w: Window, events: seq<Event>)
    requires Consistent(w)
    ensures Consistent(Replay(w, events))
    decreases |events|
  {
    if |events| > 0 {
      StepPreservesConsistent(w, events[0]);
      RunPreservesConsistent(Step(w, events[0]), events[1..]);
    }
  }

  lemma ReachableConsistent(configRtmpEnable: int, probe: Reply, events: seq<Event>)
    ensures Consistent(Replay(Launch(configRtmpEnable, probe), events))
  {
    LaunchConsistent(configRtmpEnable, probe);
    RunPreservesConsistent(Launch(configRtmpEnable, probe), events);
  }

  /** SET requests are only ever appended, and only by a click with a stored
      address, one per click. */
  lemma StepSendsOnlyOnClick(w: Window, e: Event)
    ensures |Step(w, e).sentCommands| >= |w.sentCommands|
    ensures Step(w, e).sentCommands[..|w.sentCommands|] == w.sentCommands
    ensures |Step(w, e).sentCommands| ==
      |w.sentCommands| + (if !w.halted && e.StartClicked? && e.configIp != "" then 1 else 0)
  {
  }

  /** Poll iterations of the current thread change nothing while it is not
      looping. */
  lemma {:induction false} PollRepliesIgnoredWhenNotRunning(w: Window, events: seq<Event>)
    requires PhaseOf(w.poller) != Running || w.halted
    requires forall i :: 0 <= i < |events| ==> events[i].PollReply?
    ensures Replay(w, events) == w
    decreases |events|
  {
    if |events| > 0 {
      assert Step(w, events[0]) == w;
      var rest := events[1..];
      assert forall i :: 0 <= i < |rest| ==> rest[i] == events[i + 1];
      PollRepliesIgnoredWhenNotRunning(w, rest);
    }
  }

  /** While the current thread loops and is connected and no body is "0", the
      window receives exactly the signals `check_continuously` emits, in order. */
  lemma {:induction false} CurrentThreadDeliversLoopSignals(w: Window, replies: seq<Reply>)
    requires !w.halted && PhaseOf(w.poller) == Running && w.pollerConnected
    requires forall i :: 0 <= i < |replies| ==> replies[i] != Body("0")
    ensures Replay(w, PollEvents(replies)) == DeliverAll(w, Loop(w.poller, PollInputs(replies)))
    decreases |replies|
  {
    if |replies| > 0 {
      var rest := replies[1..];
      var next := Deliver(w, SignalFor(replies[0]));
      assert Step(w, PollReply(replies[0])) == next;
      assert PollEvents(replies)[1..] == PollEvents(rest);
      assert PollInputs(replies)[1..] == PollInputs(rest);
      assert Loop(w.poller, PollInputs(replies)) == [SignalFor(replies[0])] + Loop(w.poller, PollInputs(rest));
      assert forall i :: 0 <= i < |rest| ==> rest[i] == replies[i + 1];
      CurrentThreadDeliversLoopSignals(next, rest);
      assert ([SignalFor(replies[0])] + Loop(w.poller, PollInputs(rest)))[1..] == Loop(w.poller, PollInputs(rest));
    }
  }

  /** After the user stops streaming, no result of the current poll thread
      reaches `handle_api_response` or `handle_api_error`: the window stays as
      the stop left it. */
  lemma StaleRepliesIgnoredAfterStop(w: Window, ip: string, events: seq<Event>)
    requires w.isStreaming && ip != ""
    requires forall i :: 0 <= i < |events| ==> events[i].PollReply?
    ensures Replay(StartStreaming(w, ip), events) == StartStreaming(w, ip)
  {
    PollRepliesIgnoredWhenNotRunning(StartStreaming(w, ip), events);
  }

  /** With no orphaned poll thread, a stop silences every poll result. */
  lemma {:induction false} StopSilencesPollingWithoutOrphans(w: Window, ip: string, events: seq<Event>)
    requires w.isStreaming && ip != "" && w.orphans == 0
    requires forall i :: 0 <= i < |events| ==> events[i].PollReply? || events[i].OrphanPollReply?
    ensures Replay(StartStreaming(w, ip), events) == StartStreaming(w, ip)
    decreases |events|
  {
    var s := StartStreaming(w, ip);
    if |events| > 0 {
      assert Step(s, events[0]) == s;
      var rest := events[1..];
      assert forall i :: 0 <= i < |rest| ==> rest[i] == events[i + 1];
      StopSilencesPollingWithoutOrphans(w, ip, rest);
    }
  }

  /** A poll thread left looping by a poll error is orphaned by the next
      start; after the user then stops, a "1" it reports shows the window
      recording again, although the last command sent was SET 0. */
  lemma OrphanRevivesAfterStop(w: Window, ip: string)
    requires !w.halted && !w.isStreaming && ip != ""
    requires PhaseOf(w.poller) == Running && w.pollerConnected
    ensures var r := Replay(w, [StartClicked(ip), StartClicked(ip), OrphanPollReply(Body("1"))]);
      && r.sentCommands == w.sentCommands + [SetRequest(ip, 1), SetRequest(ip, 0)]
      && PhaseOf(r.poller) != Running && !r.pollerConnected
      && r.isStreaming && r.led == Green && r.statusLabel == RecordingLabel
      && r.buttonText == StopText && !r.halted
  {
    var events := [StartClicked(ip), StartClicked(ip), OrphanPollReply(Body("1"))];
    var started := StartStreaming(w, ip);
    var stopped := StartStreaming(started, ip);
    var revived := Step(stopped, OrphanPollReply(Body("1")));
    assert started.orphans == w.orphans + 1;
    assert events[1..] == [StartClicked(ip), OrphanPollReply(Body("1"))];
    assert events[1..][1..] == [OrphanPollReply(Body("1"))];
    assert Replay(stopped, [OrphanPollReply(Body("1"))]) == Replay(revived, []) == revived;
    assert Replay(started, events[1..]) == revived;
    assert Replay(w, events) == revived;
    assert w.sentCommands + [SetRequest(ip, 1)] + [SetRequest(ip, 0)]
        == w.sentCommands + [SetRequest(ip, 1), SetRequest(ip, 0)];
  }

  /** After the device reports "0", the current poll thread has been stopped
      and no later result of it changes the window. */
  lemma RepliesIgnoredAfterInterruption(w: Window, events: seq<Event>)
    requires !w.halted && PhaseOf(w.poller) == Running && w.pollerConnected
    requires forall i :: 0 <= i < |events| ==> events[i].PollReply?
    ensures var r := Step(w, PollReply(Body("0")));
      && r.led == Red && r.statusLabel == InterruptedLabel
      && Replay(r, events) == r
  {
    var r := Step(w, PollReply(Body("0")));
    PollRepliesIgnoredWhenNotRunning(r, events);
  }

  /** A poll error leaves the poll thread looping and connected, so a later
      "1" from the device shows the window as recording again. */
  lemma PollErrorKeepsPolling(w: Window, message: string)
    requires Consistent(w) && !w.halted && PhaseOf(w.poller) == Running
    ensures var e := Step(w, PollReply(Failure(message)));
      && !e.isStreaming && e.led == Grey && e.statusLabel == NotConnectedLabel
      && PhaseOf(e.poller) == Running && e.pollerConnected
      && var back := Step(e, PollReply(Body("1")));
         back.isStreaming && back.led == Green && back.statusLabel == RecordingLabel
  {
  }

  /** Start then stop, from an idle window: exactly SET 1 then SET 0 go out,
      and the window is shown idle with the poll thread ended and disconnected;
      only the SET 1 reply stays connected. */
  lemma StartThenStop(w: Window, ip: string)
    requires !w.halted && !w.isStreaming && ip != ""
    ensures var r := Replay(w, [StartClicked(ip), StartClicked(ip)]);
      && r.sentCommands == w.sentCommands + [SetRequest(ip, 1), SetRequest(ip, 0)]
      && !r.isStreaming && r.led == Grey && r.buttonText == StartText && r.settingsEnabled
      && PhaseOf(r.poller) == Stopped && !r.pollerConnected
      && r.pendingAcks == w.pendingAcks + 1 && !r.halted
  {
    var events := [StartClicked(ip), StartClicked(ip)];
    var started := StartStreaming(w, ip);
    var stopped := StartStreaming(started, ip);
    assert events[1..] == [StartClicked(ip)];
    assert Replay(started, [StartClicked(ip)]) == Replay(stopped, []) == stopped;
    assert Replay(w, events) == stopped;
    assert w.sentCommands + [SetRequest(ip, 1)] + [SetRequest(ip, 0)]
        == w.sentCommands + [SetRequest(ip, 1), SetRequest(ip, 0)];
  }

  /** Only SET threads whose signals are still connected reach a slot: once
      `pendingAcks` replies have been delivered, further SET replies (such as
      the one to the SET 0 of a stop) change nothing. */
  lemma {:induction false} SetRepliesBeyondConnectedIgnored(w: Window, events: seq<Event>)
    requires forall i :: 0 <= i < |events| ==> events[i].SetReply?
    requires |events| >= w.pendingAcks
    ensures Replay(w, events) == Replay(w, events[..w.pendingAcks])
    ensures !w.halted ==> Replay(w, events).pendingAcks == 0
    decreases |events|
  {
    if |events| > 0 {
      var rest := events[1..];
      assert forall i :: 0 <= i < |rest| ==> rest[i] == events[i + 1];
      var next := Step(w, events[0]);
      if w.halted {
        HaltedIgnoresEvents(w, events);
        HaltedIgnoresEvents(w, events[..w.pendingAcks]);
      } else if w.pendingAcks == 0 {
        assert next == w;
        SetRepliesBeyondConnectedIgnored(w, rest);
        assert rest[..0] == events[..0];
      } else {
        assert next.pendingAcks == w.pendingAcks - 1 && !next.halted;
        SetRepliesBeyondConnectedIgnored(next, rest);
        assert events[..w.pendingAcks][1..] == rest[..next.pendingAcks];
      }
    }
  }

  /** Once an exception has escaped a slot, no event changes the window. */
  lemma {:induction false} HaltedIgnoresEvents(w: Window, events: seq<Event>)
    requires w.halted
    ensures Replay(w, events) == w
    decreases |events|
  {
    if |events| > 0 {
      HaltedIgnoresEvents(w, events[1..]);
    }
  }

  /** When the device was already streaming at launch, the first click is a
      stop: it sends SET 0, not a second SET 1, and starts no poll thread. */
  lemma LaunchStreamingThenClick(configRtmpEnable: int, ip: string)
    requires ip != ""
    ensures var r := Step(Launch(configRtmpEnable, Body("1")), StartClicked(ip));
      && r.sentCommands == [SetRequest(ip, 0)]
      && !r.isStreaming && PhaseOf(r.poller) != Running && !r.pollerConnected
  {
  }

  /** The start command's transport failure reaches `handle_api_error`: the
      window is shown idle with both buttons usable, while the poll thread the
      click started keeps looping. */
  lemma StartCommandFailure(w: Window, ip: string, message: string)
    requires !w.halted && !w.isStreaming && ip != ""
    ensures var r := Step(Step(w, StartClicked(ip)), SetReply(Failure(message)));
      && !r.isStreaming && r.led == Grey && r.statusLabel == NotConnectedLabel
      && r.startEnabled && r.settingsEnabled
      && r.pendingAcks == w.pendingAcks
      && PhaseOf(r.poller) == Running && r.pollerConnected
  {
  }

  /** A late reply to SET 1 that arrives after the user stopped sets
      `is_streaming` again while the poll thread is disconnected. The next click
      then raises in `disconnect()`: SET 0 goes out and the application halts
      with the window still showing "Stop". With the disconnect guarded, the
      same click ends idle. */
  lemma LateStartReplyThenStopHalts(configRtmpEnable: int, message: string, ip: string)
    requires ip != ""
    ensures var w := Replay(Launch(configRtmpEnable, Failure(message)),
                         [StartClicked(ip), StartClicked(ip), SetReply(Body("1"))]);
      && w.isStreaming && !w.pollerConnected && !w.halted
      && var r := Step(w, StartClicked(ip));
         && r.halted && r.isStreaming && r.buttonText == StopText
         && r.sentCommands == [SetRequest(ip, 1), SetRequest(ip, 0), SetRequest(ip, 0)]
         && var g := StopStreamingGuarded(w, ip);
            && !g.halted && !g.isStreaming && g.buttonText == StartText && g.settingsEnabled
            && g.sentCommands == r.sentCommands
  {
    var l := Launch(configRtmpEnable, Failure(message));
    var events := [StartClicked(ip), StartClicked(ip), SetReply(Body("1"))];
    var started := Step(l, StartClicked(ip));
    var stopped := Step(started, StartClicked(ip));
    var acked := Step(stopped, SetReply(Body("1")));
    assert stopped.pendingAcks == 1 && !stopped.pollerConnected;
    assert events[1..] == [StartClicked(ip), SetReply(Body("1"))];
    assert events[1..][1..] == [SetReply(Body("1"))];
    assert Replay(stopped, [SetReply(Body("1"))]) == Replay(acked, []) == acked;
    assert Replay(started, events[1..]) == acked;
    assert Replay(l, events) == acked;
    assert acked.sentCommands == [SetRequest(ip, 1), SetRequest(ip, 0)];
  }

  /** A second route to the same crash: an orphan's "1" after a stop shows the
      window recording with its poll thread disconnected, and the next click
      halts in `disconnect()`. */
  lemma OrphanRevivalThenClickHalts(w: Window, ip: string)
    requires !w.halted && !w.isStreaming && ip != ""
    requires PhaseOf(w.poller) == Running && w.pollerConnected
    ensures var revived := Replay(w, [StartClicked(ip), StartClicked(ip), OrphanPollReply(Body("1"))]);
      && var r := Step(revived, StartClicked(ip));
         && r.halted && r.isStreaming && r.buttonText == StopText
         && r.sentCommands == w.sentCommands + [SetRequest(ip, 1), SetRequest(ip, 0), SetRequest(ip, 0)]
  {
    OrphanRevivesAfterStop(w, ip);
  }
}

=== FILE: get_api.dfy ===
/**
 `GetApiThread`: the background thread that polls the device's status endpoint.
 Its loop is controlled by two flags, `running` (cleared by `stop`) and
 `rtmp_enable` (written by `set_rtmp_enable`). Each HTTP GET becomes an input
 value, so one loop iteration is a pure step.

 The class defines `run` twice. The second definition replaces the first, so a
 started thread always runs `check_continuously`, whatever its `continuous` flag.
 `is_rtmp_disabled` has no body and returns `None`, which is falsy, so
 `check_once` forwards every response body it receives.
 */
module GetApi {
  import opened Wrappers

  /** Outcome of one HTTP request: the response body, or the exception's text. */
  datatype Reply = Body(text: string) | Failure(message: string)

  /** What a thread emits: `response_signal(text)` or `error_signal(message)`. */
  datatype Signal = ResponseSignal(text: string) | ErrorSignal(message: string)

  /** The signal a request outcome turns into when it is forwarded. */
  function SignalFor(reply: Reply): Signal {
    match reply
    case Body(text) => ResponseSignal(text)
    case Failure(message) => ErrorSignal(message)
  }

  /** Lifecycle of a poll thread: never started, looping, or out of its loop. */
  datatype Phase = NotRunning | Running | Stopped

  /** The thread's fields. `started` records whether `start()` was called, and
      `exited` whether `check_continuously` has returned because its loop test
      failed; after that `run` is over and no flag brings the loop back. */
  datatype Thread = Thread(started: bool, running: bool, rtmpEnable: int, continuous: bool, exited: bool)

  /** `GetApiThread(ip, rtmp_enable, continuous)`: created with `running` set. */
  function Create(rtmpEnable: int, continuous: bool): (t: Thread)
    ensures !t.started && t.running && !t.exited
    ensures t.rtmpEnable == rtmpEnable && t.continuous == continuous
  {
    Thread(false, true, rtmpEnable, continuous, false)
  }

  /** `start()`: the thread begins executing `run`. */
  function Start(t: Thread): (s: Thread)
    ensures s.started
    ensures s.running == t.running && s.rtmpEnable == t.rtmpEnable && s.continuous == t.continuous
    ensures s.exited == t.exited
  {
    t.(started := true)
  }

  /** `stop()`: clears `running` and nothing else. */
  function Stop(t: Thread): (s: Thread)
    ensures !s.running
    ensures s.started == t.started && s.rtmpEnable == t.rtmpEnable && s.continuous == t.continuous
    ensures s.exited == t.exited
  {
    t.(running := false)
  }

  /** `set_rtmp_enable(value)`: overwrites `rtmp_enable` and nothing else. */
  function SetRtmpEnable(t: Thread, value: int): (s: Thread)
    ensures s.rtmpEnable == value
    ensures s.started == t.started && s.running == t.running && s.continuous == t.continuous
    ensures s.exited == t.exited
  {
    t.(rtmpEnable := value)
  }

  /** The loop of `check_continuously` does another check exactly when `running`
      holds and `rtmp_enable` is not 0 (the `while` condition and the `break`). */
  predicate LoopGuard(t: Thread) {
    t.running && t.rtmpEnable != 0
  }

  /** A started thread loops until its loop test first fails; from then on it
      has left `run`, whatever its flags say. */
  function PhaseOf(t: Thread): (p: Phase)
    ensures p == Running <==> t.started && !t.exited && LoopGuard(t)
    ensures p == NotRunning <==> !t.started
    ensures t.exited ==> p != Running
  {
    if !t.started then NotRunning
    else if !t.exited && LoopGuard(t) then Running
    else Stopped
  }

  /** `is_rtmp_disabled`: a stub whose result is `None`, i.e. false in a condition. */
  function IsRtmpDisabled(text: string): (disabled: bool)
    ensures !disabled
  {
    false
  }

  /** `check_once`: one GET. A body the stub would classify as "disabled" would
      clear `rtmp_enable` silently; every other body is forwarded, and a failure
      is forwarded as an error. */
  function CheckOnce(t: Thread, reply: Reply): (r: (Thread, Option<Signal>))
    ensures r.0 == t
    ensures r.1 == Some(SignalFor(reply))
  {
    match reply
    case Body(text) =>
      if IsRtmpDisabled(text) then (t.(rtmpEnable := 0), None)
      else (t, Some(ResponseSignal(text)))
    case Failure(message) => (t, Some(ErrorSignal(message)))
  }

  /** One scheduling step of a thread: a looping thread performs one GET; a
      started thread whose loop test fails leaves `run` for good; a thread that
      is not looping performs no request and emits nothing. */
  function Iterate(t: Thread, reply: Reply): (r: (Thread, Option<Signal>))
    ensures r.1.Some? <==> PhaseOf(t) == Running
    ensures r.1.Some? ==> r.1.value == SignalFor(reply)
    ensures PhaseOf(t) == Running ==> r.0 == t
    ensures t.started && PhaseOf(t) != Running ==> r.0.exited && PhaseOf(r.0) == Stopped
    ensures !t.started ==> r.0 == t
    ensures r.0.started == t.started && r.0.running == t.running
    ensures r.0.rtmpEnable == t.rtmpEnable && r.0.continuous == t.continuous
  {
    if !t.started || t.exited then (t, None)
    else if !LoopGuard(t) then (t.(exited := true), None)
    else CheckOnce(t, reply)
  }

  /** What happens around a running loop: the next GET's outcome, or a call
      from the window to `stop` or `set_rtmp_enable`. */
  datatype Input = Poll(reply: Reply) | StopCall | SetRtmpEnableCall(value: int)

  function PollCount(inputs: seq<Input>): nat {
    if |inputs| == 0 then 0
    else (if inputs[0].Poll? then 1 else 0) + PollCount(inputs[1..])
  }

  /** `check_continuously` driven by a script of inputs: before each GET the loop
      condition is tested, and once it fails the loop has exited for good.
      It emits at most one signal per GET, and nothing once `running` is clear,
      because no call sets `running` again. */
  function Loop(t: Thread, inputs: seq<Input>): (signals: seq<Signal>)
    ensures |signals| <= PollCount(inputs)
    ensures !t.running ==> signals == []
    decreases |inputs|
  {
    if |inputs| == 0 then []
    else
      match inputs[0]
      case StopCall => Loop(Stop(t), inputs[1..])
      case SetRtmpEnableCall(value) => Loop(SetRtmpEnable(t, value), inputs[1..])
      case Poll(reply) =>
        if !LoopGuard(t) then []
        else
          var (next, emitted) := CheckOnce(t, reply);
          (if emitted.Some? then [emitted.value] else []) + Loop(next, inputs[1..])
  }

  /** The body the thread executes on `start()`: the later `run` definition,
      which ignores `continuous` and always loops, as the first definition does
      for a thread built with `continuous = True`. */
  function Run(t: Thread, inputs: seq<Input>): (signals: seq<Signal>)
    ensures |signals| <= PollCount(inputs)
    ensures !t.running ==> signals == []
    ensures t.continuous ==> signals == OverriddenRun(t, inputs)
  {
    Loop(t, inputs)
  }

  /** A started thread driven one `Iterate` at a time, with the window's calls
      to `stop` and `set_rtmp_enable` in between. */
  function Drive(t: Thread, inputs: seq<Input>): (signals: seq<Signal>)
    ensures |signals| <= PollCount(inputs)
    decreases |inputs|
  {
    if |inputs| == 0 then []
    else
      match inputs[0]
      case StopCall => Drive(Stop(t), inputs[1..])
      case SetRtmpEnableCall(value) => Drive(SetRtmpEnable(t, value), inputs[1..])
      case Poll(reply) =>
        var (next, emitted) := Iterate(t, reply);
        (if emitted.Some? then [emitted.value] else []) + Drive(next, inputs[1..])
  }

  /** `check_once` against the first GET of a script; `stop` and
      `set_rtmp_enable` calls do not affect a single check. */
  function SingleCheck(t: Thread, inputs: seq<Input>): (signals: seq<Signal>)
    ensures |signals| <= 1
    ensures |signals| == 1 <==> PollCount(inputs) > 0
    decreases |inputs|
  {
    if |inputs| == 0 then []
    else
      match inputs[0]
      case Poll(reply) =>
        var (_, emitted) := CheckOnce(t, reply);
        if emitted.Some? then [emitted.value] else []
      case StopCall => SingleCheck(t, inputs[1..])
      case SetRtmpEnableCall(_) => SingleCheck(t, inputs[1..])
  }

  /** The first `run` definition, which the second one overrides: a single
      check when `continuous` is false, the loop otherwise. */
  function OverriddenRun(t: Thread, inputs: seq<Input>): (signals: seq<Signal>)
    ensures !t.continuous ==> |signals| <= 1
    ensures !t.continuous ==> (|signals| == 1 <==> PollCount(inputs) > 0)
    ensures |signals| <= PollCount(inputs)
  {
    if !t.continuous then SingleCheck(t, inputs) else Loop(t, inputs)
  }

  /** GET outcomes as a script with no `stop` or `set_rtmp_enable` calls. */
  function PollInputs(replies: seq<Reply>): (inputs: seq<Input>)
    ensures |inputs| == |replies|
    ensures forall i :: 0 <= i < |inputs| ==> inputs[i] == Poll(replies[i])
  {
    if |replies| == 0 then [] else [Poll(replies[0])] + PollInputs(replies[1..])
  }

  /** Calling `stop()` twice, as the window does, is the same as calling it once. */
  lemma StopIdempotent(t: Thread)
    ensures Stop(Stop(t)) == Stop(t)
    ensures !LoopGuard(Stop(t))
  {
  }

  /** A thread whose loop condition holds, left alone, forwards one signal per
      GET, in order: every body is passed on because the stub never reports
      "disabled". */
  lemma {:induction false} LoopForwardsEveryReply(t: Thread, inputs: seq<Input>)
    requires LoopGuard(t)
    requires forall i :: 0 <= i < |inputs| ==> inputs[i].Poll?
    ensures |Loop(t, inputs)| == |inputs|
    ensures forall i :: 0 <= i < |inputs| ==> Loop(t, inputs)[i] == SignalFor(inputs[i].reply)
    decreases |inputs|
  {
    if |inputs| > 0 {
      var rest := inputs[1..];
      assert forall i :: 0 <= i < |rest| ==> rest[i] == inputs[i + 1];
      LoopForwardsEveryReply(t, rest);
    }
  }

  /** The `continuous` flag chosen at construction makes no difference to what
      a started thread does. */
  lemma {:induction false} ContinuousFlagIgnored(t: Thread, inputs: seq<Input>)
    ensures Run(t.(continuous := false), inputs) == Run(t.(continuous := true), inputs)
    decreases |inputs|
  {
    if |inputs| > 0 {
      var f := t.(continuous := false);
      var c := t.(continuous := true);
      match inputs[0]
      case StopCall =>
        ContinuousFlagIgnored(Stop(t), inputs[1..]);
        assert Stop(f) == Stop(t).(continuous := false);
        assert Stop(c) == Stop(t).(continuous := true);
      case SetRtmpEnableCall(value) =>
        ContinuousFlagIgnored(SetRtmpEnable(t, value), inputs[1..]);
        assert SetRtmpEnable(f, value) == SetRtmpEnable(t, value).(continuous := false);
        assert SetRtmpEnable(c, value) == SetRtmpEnable(t, value).(continuous := true);
      case Poll(reply) =>
        ContinuousFlagIgnored(t, inputs[1..]);
    }
  }

  /** A thread built for a single check (`continuous = false`) still polls as
      long as it is left running: with n GETs it emits n signals. */
  lemma SingleCheckThreadPollsContinuously(rtmpEnable: int, inputs: seq<Input>)
    requires rtmpEnable != 0
    requires forall i :: 0 <= i < |inputs| ==> inputs[i].Poll?
    ensures |Run(Start(Create(rtmpEnable, false)), inputs)| == |inputs|
  {
    LoopForwardsEveryReply(Start(Create(rtmpEnable, false)), inputs);
  }

  /** The override changes behaviour: with two or more GETs, a thread built
      with `continuous = False` emits a signal per GET under the `run` that
      takes effect, but at most one under the `run` it replaces. */
  lemma OverrideChangesSingleCheckThread(rtmpEnable: int, inputs: seq<Input>)
    requires rtmpEnable != 0 && |inputs| >= 2
    requires forall i :: 0 <= i < |inputs| ==> inputs[i].Poll?
    ensures |OverriddenRun(Start(Create(rtmpEnable, false)), inputs)| <= 1
    ensures |Run(Start(Create(rtmpEnable, false)), inputs)| == |inputs|
    ensures Run(Start(Create(rtmpEnable, false)), inputs) != OverriddenRun(Start(Create(rtmpEnable, false)), inputs)
  {
    SingleCheckThreadPollsContinuously(rtmpEnable, inputs);
  }

  /** `set_rtmp_enable(0)` ends the loop at its next test, unless a later call
      sets a non-zero value before the next GET. */
  lemma DisabledLoopExits(t: Thread, reply: Reply, rest: seq<Input>)
    ensures Loop(t, [SetRtmpEnableCall(0), Poll(reply)] + rest) == []
  {
    var inputs := [SetRtmpEnableCall(0), Poll(reply)] + rest;
    assert inputs[1..] == [Poll(reply)] + rest;
    assert ([Poll(reply)] + rest)[0] == Poll(reply);
  }

  /** Once a thread has left `run`, driving it further emits nothing, even if
      `set_rtmp_enable` later makes its loop test hold again. */
  lemma {:induction false} ExitedThreadSilent(t: Thread, inputs: seq<Input>)
    requires t.exited
    ensures Drive(t, inputs) == []
    decreases |inputs|
  {
    if |inputs| > 0 {
      match inputs[0]
      case StopCall => ExitedThreadSilent(Stop(t), inputs[1..]);
      case SetRtmpEnableCall(value) => ExitedThreadSilent(SetRtmpEnable(t, value), inputs[1..]);
      case Poll(reply) => ExitedThreadSilent(Iterate(t, reply).0, inputs[1..]);
    }
  }

  /** Stepping a started thread one `Iterate` at a time emits exactly what
      `check_continuously` emits over the same script. */
  lemma {:induction false} DriveMatchesLoop(t: Thread, inputs: seq<Input>)
    requires t.started && !t.exited
    ensures Drive(t, inputs) == Loop(t, inputs)
    decreases |inputs|
  {
    if |inputs| > 0 {
      match inputs[0]
      case StopCall => DriveMatchesLoop(Stop(t), inputs[1..]);
      case SetRtmpEnableCall(value) => DriveMatchesLoop(SetRtmpEnable(t, value), inputs[1..]);
      case Poll(reply) =>
        if LoopGuard(t) {
          DriveMatchesLoop(t, inputs[1..]);
        } else {
          ExitedThreadSilent(Iterate(t, reply).0, inputs[1..]);
        }
    }
  }

  /** A thread whose loop test has failed once does not poll again after
      `set_rtmp_enable(1)`. */
  lemma NoRestartAfterExit(t: Thread, reply: Reply, later: Reply)
    requires t.started && !LoopGuard(t)
    ensures Iterate(SetRtmpEnable(Iterate(t, reply).0, 1), later).1 == None
  {
  }
}

=== FILE: int_parse.dfy ===
/**
 Python's `int(text)` restricted to what the IPv4 check relies on: an optional
 `+` or `-` followed by one or more ASCII decimal digits, leading zeros allowed.
 Any other text makes `int` raise `ValueError`, modelled here as `None`.
 */
module IntParse {
  import opened Wrappers

  predicate IsDigit(c: char) {
    '0' <= c <= '9'
  }

  predicate AllDigits(s: string) {
    forall i :: 0 <= i < |s| ==> IsDigit(s[i])
  }

  function DigitValue(c: char): (d: nat)
    requires IsDigit(c)
    ensures d < 10
  {
    (c as int) - ('0' as int)
  }

  function DigitChar(d: nat): (c: char)
    requires d < 10
    ensures IsDigit(c) && DigitValue(c) == d
  {
    ('0' as int + d) as char
  }

  /** The number a digit string denotes, most significant digit first. */
  function DigitsValue(s: string): nat
    requires AllDigits(s)
  {
    if |s| == 0 then 0
    else DigitsValue(s[..|s| - 1]) * 10 + DigitValue(s[|s| - 1])
  }

  /** `int(s)` for an ASCII sign-and-digits literal; `None` where `int` raises. */
  function ParseInt(s: string): (r: Option<int>)
    ensures |s| == 0 ==> r == None
    ensures r.Some? ==> forall i :: 1 <= i < |s| ==> IsDigit(s[i])
    ensures r.Some? ==> IsDigit(s[0]) || ((s[0] == '+' || s[0] == '-') && |s| >= 2)
    ensures r.Some? && r.value < 0 ==> s[0] == '-'
    ensures |s| >= 1 && AllDigits(s) ==> r.Some? && r.value >= 0
  {
    if |s| == 0 then None
    else if s[0] == '+' || s[0] == '-' then
      var digits := s[1..];
      if |digits| > 0 && AllDigits(digits) then
        assert forall i :: 1 <= i < |s| ==> s[i] == digits[i - 1];
        var v: int := DigitsValue(digits);
        Some(if s[0] == '-' then -v else v)
      else None
    else if AllDigits(s) then Some(DigitsValue(s))
    else None
  }

  /** Canonical decimal digits of `n`: no leading zero, and they denote `n`. */
  function NatDigits(n: nat): (s: string)
    ensures |s| >= 1 && AllDigits(s)
    ensures DigitsValue(s) == n
    ensures s[0] == '0' ==> n == 0
  {
    if n < 10 then [DigitChar(n)]
    else
      var s := NatDigits(n / 10) + [DigitChar(n % 10)];
      assert s[..|s| - 1] == NatDigits(n / 10);
      s
  }

  /** `str(n)`: the decimal rendering Python prints for an integer. */
  function Show(n: int): string
  {
    if n < 0 then "-" + NatDigits(-n) else NatDigits(n)
  }

  /** Round trip: `int(str(n)) == n` for every integer. */
  lemma ParseShow(n: int)
    ensures ParseInt(Show(n)) == Some(n)
  {
    if n < 0 {
      var s := Show(n);
      assert s[1..] == NatDigits(-n);
    }
  }

  /** A leading zero does not change the value of a digit string. */
  lemma {:induction false} LeadingZeroValue(d: string)
    requires AllDigits(d)
    ensures AllDigits("0" + d) && DigitsValue("0" + d) == DigitsValue(d)
    decreases |d|
  {
    var z := "0" + d;
    assert AllDigits(z) by {
      forall i | 0 <= i < |z| ensures IsDigit(z[i]) {
        if i > 0 { assert z[i] == d[i - 1]; }
      }
    }
    if |d| > 0 {
      var init := d[..|d| - 1];
      assert z[..|z| - 1] == "0" + init;
      assert z[|z| - 1] == d[|d| - 1];
      LeadingZeroValue(init);
    }
  }

  /** `int("0" + d) == int(d)` for a non-empty digit string `d`, as Python allows
      leading zeros in a string passed to `int`. */
  lemma ParseLeadingZero(d: string)
    requires |d| >= 1 && AllDigits(d)
    ensures ParseInt("0" + d) == ParseInt(d)
  {
    LeadingZeroValue(d);
  }

  /** A sign in front of a digit string: `+` keeps the value, `-` negates it. */
  lemma ParseSigned(d: string)
    requires |d| >= 1 && AllDigits(d)
    ensures ParseInt("+" + d) == Some(DigitsValue(d))
    ensures ParseInt("-" + d) == Some(-(DigitsValue(d) as int))
  {
    assert ("+" + d)[1..] == d;
    assert ("-" + d)[1..] == d;
  }
}

=== FILE: ip_address.dfy ===
/**
 `MainWindow.is_valid_ip`: an address is accepted when splitting it on "." gives
 exactly four fields and every field parses as an integer in 0..255. A field
 that does not parse makes `int` raise `ValueError`, which the check catches and
 turns into a rejection.
 */
module IpAddress {
  import Text
  import opened IntParse

  /** One field passes `0 <= int(item) <= 255`. */
  predicate IsOctet(part: string) {
    ParseInt(part).Some? && 0 <= ParseInt(part).value <= 255
  }

  /** Four dot-free fields, each an octet. */
  predicate IsQuad(fields: seq<string>) {
    |fields| == 4 && forall i :: 0 <= i < |fields| ==> '.' !in fields[i] && IsOctet(fields[i])
  }

  /** Reference reading of a valid address: it is four octet fields joined by dots. */
  ghost predicate IsDottedQuad(ip: string) {
    exists fields :: IsQuad(fields) && Text.Join(fields, '.') == ip
  }

  /** The accept/reject verdict of `is_valid_ip`. An accepted address has
      exactly three dots and neither starts nor ends with one, since every
      field must parse and `int("")` raises. */
  function IsValidIp(ip: string): (valid: bool)
    ensures valid ==> Text.Count(ip, '.') == 3
    ensures valid ==> |ip| >= 7 && ip[0] != '.' && ip[|ip| - 1] != '.'
  {
    var parts := Text.Split(ip, '.');
    var valid := |parts| == 4 && IsOctet(parts[0]) && IsOctet(parts[1]) && IsOctet(parts[2]) && IsOctet(parts[3]);
    if valid then
      JoinFour(parts[0], parts[1], parts[2], parts[3]);
      assert parts == [parts[0], parts[1], parts[2], parts[3]];
      valid
    else valid
  }

  /** Four fields joined by dots, spelled out. */
  lemma JoinFour(a: string, b: string, c: string, d: string)
    ensures Text.Join([a, b, c, d], '.') == a + "." + b + "." + c + "." + d
  {
    var fields := [a, b, c, d];
    assert fields[1..][1..][1..] == [d];
    assert fields[1..][1..] == [c, d];
    assert fields[1..] == [b, c, d];
    assert Text.Join(fields[1..][1..], '.') == c + "." + d;
    assert Text.Join(fields[1..], '.') == b + "." + (c + "." + d);
  }

  /** The check follows the source's control flow: split, compare the field count,
      then walk the fields and return at the first one that does not parse or is
      out of range. */
  method CheckIp(ip: string) returns (valid: bool)
    ensures valid == IsValidIp(ip)
    ensures |Text.Split(ip, '.')| != 4 ==> !valid
    ensures forall i :: 0 <= i < |Text.Split(ip, '.')| && ParseInt(Text.Split(ip, '.')[i]).None? ==> !valid
    ensures forall i :: (0 <= i < |Text.Split(ip, '.')| && ParseInt(Text.Split(ip, '.')[i]).Some? &&
                         !(0 <= ParseInt(Text.Split(ip, '.')[i]).value <= 255)) ==> !valid
  {
    var parts := Text.Split(ip, '.');
    if |parts| != 4 {
      return false;
    }
    var k := 0;
    while k < |parts|
      invariant 0 <= k <= |parts|
      invariant forall j :: 0 <= j < k ==> IsOctet(parts[j])
    {
      var n := ParseInt(parts[k]);
      if n.None? {
        // int(item) raised ValueError
        return false;
      }
      if !(0 <= n.value <= 255) {
        return false;
      }
      k := k + 1;
    }
    return true;
  }

  /** The split-based check accepts exactly the four-octet dotted strings. */
  lemma IsValidIpMatchesReference(ip: string)
    ensures IsValidIp(ip) <==> IsDottedQuad(ip)
  {
    var parts := Text.Split(ip, '.');
    if IsValidIp(ip) {
      assert IsQuad(parts);
    }
    if IsDottedQuad(ip) {
      var fields :| IsQuad(fields) && Text.Join(fields, '.') == ip;
      Text.SplitJoin(fields, '.');
      assert parts == fields;
    }
  }

  /** Every address printed from four integers in 0..255 is accepted. */
  lemma FormattedAddressAccepted(a: int, b: int, c: int, d: int)
    requires 0 <= a <= 255 && 0 <= b <= 255 && 0 <= c <= 255 && 0 <= d <= 255
    ensures IsValidIp(Show(a) + "." + Show(b) + "." + Show(c) + "." + Show(d))
  {
    var fields := [Show(a), Show(b), Show(c), Show(d)];
    ParseShow(a);
    ParseShow(b);
    ParseShow(c);
    ParseShow(d);
    forall i | 0 <= i < 4 ensures '.' !in fields[i] {
      var f := fields[i];
      assert AllDigits(f);
    }
    assert IsQuad(fields);
    var ip := Show(a) + "." + Show(b) + "." + Show(c) + "." + Show(d);
    JoinFour(Show(a), Show(b), Show(c), Show(d));
    IsValidIpMatchesReference(ip);
  }
}

=== FILE: ip_examples.dfy ===
/**
 Concrete accept and reject cases of `is_valid_ip`, including the ones the
 leniency of Python's `int` lets through (signs and leading zeros).
 */
module IpExamples {
  import opened Wrappers
  import Text
  import opened IntParse
  import opened IpAddress

  /** Value of a digit string of up to three digits. */
  lemma ShortDigits(s: string)
    requires 1 <= |s| <= 3 && AllDigits(s)
    ensures |s| == 1 ==> DigitsValue(s) == DigitValue(s[0])
    ensures |s| == 2 ==> DigitsValue(s) == 10 * DigitValue(s[0]) + DigitValue(s[1])
    ensures |s| == 3 ==> DigitsValue(s) == 100 * DigitValue(s[0]) + 10 * DigitValue(s[1]) + DigitValue(s[2])
  {
    if |s| >= 2 {
      assert s[..|s| - 1][..|s| - 2] == s[..|s| - 2];
    }
  }

  /** Four octet fields joined by dots are accepted. */
  lemma QuadAccepted(fields: seq<string>)
    requires IsQuad(fields)
    ensures IsValidIp(Text.Join(fields, '.'))
  {
    Text.SplitJoin(fields, '.');
  }

  /** Four dot-free fields joined by dots are rejected as soon as one of them
      is not an octet. */
  lemma QuadRejected(fields: seq<string>, k: int)
    requires |fields| == 4 && forall i :: 0 <= i < 4 ==> '.' !in fields[i]
    requires 0 <= k < 4 && !IsOctet(fields[k])
    ensures !IsValidIp(Text.Join(fields, '.'))
  {
    Text.SplitJoin(fields, '.');
  }

  lemma PrivateAddressFields()
    ensures IsQuad(["192", "168", "1", "10"])
  {
    ShortDigits("192");
    ShortDigits("168");
    ShortDigits("1");
    ShortDigits("10");
    assert IsOctet("192");
    assert IsOctet("168");
    assert IsOctet("1");
    assert IsOctet("10");
  }

  lemma AcceptsPrivateAddress()
    ensures IsValidIp("192.168.1.10")
  {
    PrivateAddressFields();
    QuadAccepted(["192", "168", "1", "10"]);
    JoinFour("192", "168", "1", "10");
    assert "192.168.1.10" == "192" + "." + "168" + "." + "1" + "." + "10";
  }

  lemma RejectsOctetAbove255()
    ensures !IsValidIp("256.1.1.1")
  {
    ShortDigits("256");
    ShortDigits("1");
    assert ParseInt("256") == Some(256);
    JoinFour("256", "1", "1", "1");
    QuadRejected(["256", "1", "1", "1"], 0);
    assert "256.1.1.1" == "256" + "." + "1" + "." + "1" + "." + "1";
  }

  lemma RejectsNonNumericFields()
    ensures !IsValidIp("a.b.c.d")
  {
    assert ParseInt("a") == None;
    JoinFour("a", "b", "c", "d");
    QuadRejected(["a", "b", "c", "d"], 0);
    assert "a.b.c.d" == "a" + "." + "b" + "." + "c" + "." + "d";
  }

  lemma RejectsEmptyField()
    ensures !IsValidIp("1..2.3")
  {
    assert ParseInt("") == None;
    JoinFour("1", "", "2", "3");
    QuadRejected(["1", "", "2", "3"], 1);
    assert "1..2.3" == "1" + "." + "" + "." + "2" + "." + "3";
  }

  lemma RejectsNegativeOctet()
    ensures !IsValidIp("-1.0.0.0")
  {
    ParseSigned("1");
    ShortDigits("1");
    assert ParseInt("-1") == Some(-1);
    JoinFour("-1", "0", "0", "0");
    QuadRejected(["-1", "0", "0", "0"], 0);
    assert "-1.0.0.0" == "-1" + "." + "0" + "." + "0" + "." + "0";
  }

  lemma RejectsThreeFields()
    ensures !IsValidIp("1.2.3")
  {
    var fields := ["1", "2", "3"];
    assert fields[1..][1..] == ["3"];
    assert fields[1..] == ["2", "3"];
    assert Text.Join(fields, '.') == "1.2.3";
    forall i | 0 <= i < 3 ensures '.' !in fields[i] {
    }
    Text.SplitJoin(fields, '.');
  }

  lemma RejectsFiveFields()
    ensures !IsValidIp("1.2.3.4.5")
  {
    var fields := ["1", "2", "3", "4", "5"];
    assert fields[1..][1..][1..][1..] == ["5"];
    assert fields[1..][1..][1..] == ["4", "5"];
    assert fields[1..][1..] == ["3", "4", "5"];
    assert fields[1..] == ["2", "3", "4", "5"];
    assert Text.Join(fields, '.') == "1.2.3.4.5";
    forall i | 0 <= i < 5 ensures '.' !in fields[i] {
    }
    Text.SplitJoin(fields, '.');
  }

  lemma RejectsEmptyAddress()
    ensures !IsValidIp("")
  {
  }

  lemma SignedFields()
    ensures IsQuad(["-0", "+1", "007", "255"])
  {
    ParseSigned("0");
    ParseSigned("1");
    ShortDigits("0");
    ShortDigits("1");
    ShortDigits("007");
    ShortDigits("255");
    assert IsOctet("-0");
    assert IsOctet("+1");
    assert IsOctet("007");
    assert IsOctet("255");
  }

  /** `int` accepts a sign and leading zeros, so these spellings pass the check. */
  lemma AcceptsSignsAndLeadingZeros()
    ensures IsValidIp("-0.+1.007.255")
  {
    SignedFields();
    QuadAccepted(["-0", "+1", "007", "255"]);
    JoinFour("-0", "+1", "007", "255");
    assert "-0.+1.007.255" == "-0" + "." + "+1" + "." + "007" + "." + "255";
  }
}

=== FILE: main_window.dfy ===
/**
 The slots of `MainWindow` as pure transitions on an immutable window record.
 Only the state the handlers read or write is kept: the streaming flag, the
 LED colour, the status label, the start button's text and enabled state, the
 settings button's enabled state, the current poll thread and whether its
 signals are connected, the poll threads that were replaced while still looping
 and connected, the SET threads whose reply is still connected, the SET
 requests sent so far, and whether an exception escaped a slot. Widgets,
 pixmaps and style sheets are not modelled.
 */
module MainWindow {
  import opened GetApi

  datatype Led = White | Grey | Green | Red

  /** The two captions of the start button. */
  datatype ButtonText = StartText | StopText {
    function Caption(): string {
      match this
      case StartText => "Start RTMP \nStreaming"
      case StopText => "Stop RTMP \nStreaming"
    }
  }

  /** One `SetApiThread`: a GET of `set_ctl` to `ip` with this `rtmp_enable`. */
  datatype SetRequest = SetRequest(ip: string, rtmpEnable: int)

  datatype Window = Window(
    isStreaming: bool,
    led: Led,
    statusLabel: string,
    buttonText: ButtonText,
    startEnabled: bool,
    settingsEnabled: bool,
    poller: Thread,
    pollerConnected: bool,
    orphans: nat,
    pendingAcks: nat,
    sentCommands: seq<SetRequest>,
    halted: bool)

  const RecordingLabel: string := "Sto registrando"
  /** The source file holds the accented letter encoded twice, so the label
      Python shows has the two characters U+00C3 U+00A8 where "e grave" was meant. */
  const InterruptedLabel: string := "La registrazione \U{C3}\U{A8} interrotta"
  const NotConnectedLabel: string := "Errore: Non collegato al server"
  const MissingIpLabel: string := "Inserire Ip"

  /** The command path and the poll threads are as they were: no SET was sent,
      no SET reply was consumed, the poll threads and their connections are
      untouched, and no exception escaped. */
  predicate SameControl(a: Window, b: Window) {
    && a.sentCommands == b.sentCommands
    && a.pendingAcks == b.pendingAcks
    && a.poller == b.poller
    && a.pollerConnected == b.pollerConnected
    && a.orphans == b.orphans
    && a.halted == b.halted
  }

  /** What the user sees is as it was. */
  predicate SameView(a: Window, b: Window) {
    && a.isStreaming == b.isStreaming
    && a.led == b.led
    && a.statusLabel == b.statusLabel
    && a.buttonText == b.buttonText
    && a.startEnabled == b.startEnabled
    && a.settingsEnabled == b.settingsEnabled
  }

  /** `display_error_message`: shows the message, greys the LED, resets the
      button caption and clears the streaming flag. */
  function DisplayErrorMessage(w: Window, message: string): (r: Window)
    ensures r.statusLabel == message && r.led == Grey && r.buttonText == StartText
    ensures !r.isStreaming
    ensures r.startEnabled == w.startEnabled && r.settingsEnabled == w.settingsEnabled
    ensures SameControl(w, r)
  {
    w.(statusLabel := message, led := Grey, buttonText := StartText, isStreaming := false)
  }

  /** `handle_api_error`: whatever the error and the prior state, the window
      ends idle with both buttons usable. The poll thread is NOT stopped. */
  function HandleApiError(w: Window, message: string): (r: Window)
    ensures !r.isStreaming && r.led == Grey && r.buttonText == StartText
    ensures r.statusLabel == NotConnectedLabel
    ensures r.startEnabled && r.settingsEnabled
    ensures SameControl(w, r)
  {
    var shown := DisplayErrorMessage(w, NotConnectedLabel);
    shown.(settingsEnabled := true, startEnabled := true, buttonText := StartText)
  }

  /** `handle_api_response`: "0" means the device stopped recording; the poll
      thread is stopped and waited for, but the streaming flag is left as it is.
      Any other body means recording. Both branches lock the settings button. */
  function HandleApiResponse(w: Window, response: string): (r: Window)
    ensures response == "0" ==>
      && r.led == Red && r.statusLabel == InterruptedLabel && r.buttonText == StopText
      && r.isStreaming == w.isStreaming
      && r.poller == Stop(w.poller) && PhaseOf(r.poller) != Running
    ensures response != "0" ==>
      && r.led == Green && r.statusLabel == RecordingLabel && r.buttonText == StopText
      && r.isStreaming
      && r.poller == w.poller
    ensures !r.settingsEnabled
    ensures r.startEnabled == w.startEnabled
    ensures r.sentCommands == w.sentCommands && r.pendingAcks == w.pendingAcks
    ensures r.pollerConnected == w.pollerConnected && r.orphans == w.orphans && r.halted == w.halted
  {
    if response == "0" then
      w.(led := Red, statusLabel := InterruptedLabel, buttonText := StopText,
         poller := Stop(w.poller), settingsEnabled := false)
    else
      w.(led := Green, statusLabel := RecordingLabel, buttonText := StopText,
         isStreaming := true, settingsEnabled := false)
  }

  /** `handle_initial_status`: "1" shows the window as recording (without
      starting a poll thread); anything else shows it idle. Both re-enable the
      start button. */
  function HandleInitialStatus(w: Window, response: string): (r: Window)
    ensures response == "1" ==>
      && r.isStreaming && r.led == Green && r.statusLabel == RecordingLabel
      && r.buttonText == StopText && !r.settingsEnabled
    ensures response != "1" ==>
      && r.led == Grey && r.buttonText == StartText
      && r.isStreaming == w.isStreaming && r.statusLabel == w.statusLabel
      && r.settingsEnabled == w.settingsEnabled
    ensures r.startEnabled
    ensures SameControl(w, r)
  {
    if response == "1" then
      w.(led := Green, statusLabel := RecordingLabel, buttonText := StopText,
         settingsEnabled := false, isStreaming := true, startEnabled := true)
    else
      w.(led := Grey, buttonText := StartText, startEnabled := true)
  }

  /** `stop_streaming`: when streaming, starts SET 0 and disconnects its
      signals at once, then calls `disconnect()` on the poll thread's signals.
      If they are already disconnected (a stop, then a late SET 1 reply that set
      `is_streaming` again), PyQt raises `TypeError` there: SET 0 has gone out,
      nothing after that line runs, and the exception escapes the slot.
      Otherwise the poll thread is stopped and waited for, and the window is
      shown idle. When not streaming it does nothing. */
  function StopStreaming(w: Window, ip: string): (r: Window)
    ensures !w.isStreaming ==> r == w
    ensures w.isStreaming ==>
      && r.sentCommands == w.sentCommands + [SetRequest(ip, 0)]
      && r.pendingAcks == w.pendingAcks && r.orphans == w.orphans
    ensures w.isStreaming && !w.pollerConnected ==>
      && r.halted
      && SameView(w, r) && r.poller == w.poller && !r.pollerConnected
    ensures w.isStreaming && w.pollerConnected ==>
      && r.halted == w.halted
      && !r.pollerConnected && PhaseOf(r.poller) != Running
      && !r.isStreaming && r.led == Grey && r.statusLabel == "" && r.buttonText == StartText
      && r.settingsEnabled && r.startEnabled == w.startEnabled
  {
    if !w.isStreaming then w
    else
      var sent := w.(sentCommands := w.sentCommands + [SetRequest(ip, 0)]);
      if !w.pollerConnected then
        // get_thread.response_signal.disconnect() raises TypeError
        sent.(halted := true)
      else
        var stopped := Stop(w.poller);
        var idle := sent.(pollerConnected := false, poller := stopped,
                          led := Grey, statusLabel := "", buttonText := StartText,
                          isStreaming := false, settingsEnabled := true);
        // the source calls stop() a second time at the end
        idle.(poller := Stop(idle.poller))
  }

  /** `stop_streaming` with the poll thread's `disconnect()` calls made only
      when its signals are still connected: every stop of a streaming window
      ends idle, whatever the connection state, and agrees with the source
      whenever the source does not raise. */
  function StopStreamingGuarded(w: Window, ip: string): (r: Window)
    ensures !w.isStreaming ==> r == w
    ensures w.isStreaming ==>
      && r.halted == w.halted
      && r.sentCommands == w.sentCommands + [SetRequest(ip, 0)]
      && r.pendingAcks == w.pendingAcks && r.orphans == w.orphans
      && !r.pollerConnected && PhaseOf(r.poller) != Running
      && !r.isStreaming && r.led == Grey && r.statusLabel == "" && r.buttonText == StartText
      && r.settingsEnabled && r.startEnabled == w.startEnabled
    ensures w.pollerConnected ==> r == StopStreaming(w, ip)
  {
    if !w.isStreaming then w
    else
      var stopped := Stop(Stop(w.poller));
      w.(sentCommands := w.sentCommands + [SetRequest(ip, 0)],
         pollerConnected := false, poller := stopped,
         led := Grey, statusLabel := "", buttonText := StartText,
         isStreaming := false, settingsEnabled := true)
  }

  /** `start_streaming`, with `ip` the address read from the configuration
      ("" when none is stored). A new poll thread replaces `self.get_thread`;
      if the old one was still looping and connected, nothing stops it and it
      keeps reaching the slots as an orphan. */
  function StartStreaming(w: Window, ip: string): (r: Window)
    ensures ip == "" ==>
      && SameControl(w, r)
      && r.statusLabel == MissingIpLabel && r.led == Grey && !r.isStreaming
      && r.buttonText == StartText && r.settingsEnabled == w.settingsEnabled
    ensures ip != "" && !w.isStreaming ==>
      && r.sentCommands == w.sentCommands + [SetRequest(ip, 1)]
      && r.pendingAcks == w.pendingAcks + 1
      && PhaseOf(r.poller) == Running && r.pollerConnected && r.poller.rtmpEnable == 1
      && r.orphans == w.orphans + (if PhaseOf(w.poller) == Running && w.pollerConnected then 1 else 0)
      && r.halted == w.halted
      && r.isStreaming && r.led == Green && r.statusLabel == RecordingLabel
      && r.buttonText == StopText && !r.settingsEnabled
    ensures ip != "" && w.isStreaming ==> r == StopStreaming(w, ip)
    ensures ip != "" && w.isStreaming && w.pollerConnected ==>
      && r.sentCommands == w.sentCommands + [SetRequest(ip, 0)]
      && PhaseOf(r.poller) != Running && !r.pollerConnected
      && !r.isStreaming && r.led == Grey && r.statusLabel == ""
      && r.buttonText == StartText && r.settingsEnabled
    ensures r.startEnabled == w.startEnabled
  {
    if ip == "" then
      DisplayErrorMessage(w, MissingIpLabel)
    else if !w.isStreaming then
      var orphaned := if PhaseOf(w.poller) == Running && w.pollerConnected then 1 else 0;
      w.(sentCommands := w.sentCommands + [SetRequest(ip, 1)],
         pendingAcks := w.pendingAcks + 1,
         orphans := w.orphans + orphaned,
         poller := Start(Create(1, true)), pollerConnected := true,
         led := Green, statusLabel := RecordingLabel, buttonText := StopText,
         isStreaming := true, settingsEnabled := false)
    else
      StopStreaming(w, ip)
  }
}

=== FILE: text.dfy ===
/**
 Splitting a string on a one-character separator, with the semantics of Python's
 `str.split(sep)` for an explicit separator: every occurrence of the separator
 ends a field, empty fields are kept, and the empty string yields one empty field.
 `Join` is the inverse operation (`sep.join(parts)`).
 */
module Text {

  /** Number of occurrences of `c` in `s`. */
  function Count(s: string, c: char): nat
  {
    if |s| == 0 then 0
    else (if s[0] == c then 1 else 0) + Count(s[1..], c)
  }

  /** The fields of `parts` with one `sep` between consecutive fields. */
  function Join(parts: seq<string>, sep: char): string
    requires |parts| >= 1
  {
    if |parts| == 1 then parts[0]
    else parts[0] + [sep] + Join(parts[1..], sep)
  }

  /** `s.split(sep)`: one more field than there are separators, none of them holding
      the separator, and joining them back gives `s` again. */
  function Split(s: string, sep: char): (parts: seq<string>)
    ensures |parts| == Count(s, sep) + 1
    ensures forall i :: 0 <= i < |parts| ==> sep !in parts[i]
    ensures Join(parts, sep) == s
    decreases |s|
  {
    if |s| == 0 then [""]
    else
      var rest := Split(s[1..], sep);
      if s[0] == sep then
        assert ([""] + rest)[1..] == rest;
        [""] + rest
      else
        var parts := [[s[0]] + rest[0]] + rest[1..];
        assert parts[1..] == rest[1..];
        assert s == [s[0]] + s[1..];
        parts
  }

  /** A string without the separator is a single field. */
  lemma {:induction false} SplitWithoutSeparator(a: string, sep: char)
    requires sep !in a
    ensures Split(a, sep) == [a]
    decreases |a|
  {
    if |a| > 0 {
      assert sep !in a[1..];
      SplitWithoutSeparator(a[1..], sep);
      assert [a[0]] + a[1..] == a;
    }
  }

  /** A field followed by the separator splits off as the first field. */
  lemma {:induction false} SplitAfterField(a: string, t: string, sep: char)
    requires sep !in a
    ensures Split(a + [sep] + t, sep) == [a] + Split(t, sep)
    decreases |a|
  {
    var s := a + [sep] + t;
    if |a| == 0 {
      assert s[0] == sep && s[1..] == t;
    } else {
      assert s[0] == a[0] && s[1..] == a[1..] + [sep] + t;
      assert sep !in a[1..];
      SplitAfterField(a[1..], t, sep);
      assert [a[0]] + a[1..] == a;
    }
  }

  /** Round trip in the other direction: splitting the join of separator-free
      fields recovers exactly those fields. */
  lemma {:induction false} SplitJoin(parts: seq<string>, sep: char)
    requires |parts| >= 1
    requires forall i :: 0 <= i < |parts| ==> sep !in parts[i]
    ensures Split(Join(parts, sep), sep) == parts
    decreases |parts|
  {
    if |parts| == 1 {
      SplitWithoutSeparator(parts[0], sep);
    } else {
      var tail := parts[1..];
      assert forall i :: 0 <= i < |tail| ==> sep !in tail[i] by {
        forall i | 0 <= i < |tail| ensures sep !in tail[i] {
          assert tail[i] == parts[i + 1];
        }
      }
      SplitJoin(tail, sep);
      SplitAfterField(parts[0], Join(tail, sep), sep);
      assert [parts[0]] + tail == parts;
    }
  }
}

=== FILE: wrappers.dfy ===
/** Optional value, used for the outcome of a parse that may fail. */
module Wrappers {

  /** Either no value (the operation failed) or a value. */
  datatype Option<+T> = None | Some(value: T)
}
